=== FILE: README.md ===
# Water reminder scheduler — a Dafny model

A model of the reminder scheduling state machine of the macOS menu-bar app
in `Sources/WaterReminder.swift`. The app counts down from a configurable
interval since the user last drank water. When the countdown runs out, it
shows a modal prompt with two choices. "I Drank Water" restarts the
countdown from the base interval. "Snooze" (also the outcome when the prompt
times out) restarts it from the first-snooze interval, then from half the
previous interval on each later snooze, never below a minimum. A wake
notification that arrives at least 300 s after the last check (launch, the
last resolved prompt or the last wake, whichever is latest; a timed-out
prompt counts as resolved) starts a fresh snooze
chain and queues a welcome-back reminder, however short the sleep itself
was.

Every transition is a pure function of the state, the stored preferences and
an explicit `now` in seconds; durations and timestamps are `real`.

- `numerics.dfy` — module `Numerics`: the `clamped(min:)` extension, `max`,
  Swift's truncating `Int(_:)` and `truncatingRemainder`.
- `settings.dfy` — module `Settings`: the stored preferences, the clamped
  getters (floors 60 s, 10 s, 5 s), the registered defaults and what saving
  the preferences window writes.
- `scheduler.dfy` — module `Scheduler`: the state (`lastDrinkTime`,
  `lastCheckTime`, `currentInterval`, `isFirstSnooze`, `alertOpen`) and the
  transitions `Ack`, `Snooze`, `Tick`, `DidWake`, `ShowReminder` (split into
  `OpenPrompt` and `ClosePrompt`) and `SavePreferences`.
- `display.dfy` — module `Display`: the `M:SS` countdown and the snooze
  button's label (`formatNextSnooze`).
- `decay.dfy` — module `Decay`: the halving chain and its convergence to the
  minimum.
- `machine.dfy` — module `Machine`: all of the above driven by events, with
  the prompt as a single slot guarded by `alertOpen`.
- `scenarios.dfy` — module `Scenarios`: worked examples with the defaults.

Two natural claims about this scheduler do NOT hold of the code, and the
model proves counterexamples rather than the claims:

- `currentInterval >= minInterval` is not an invariant. An acknowledgment
  installs the base interval, and a first snooze installs the first-snooze
  interval. Either can lie below a large configured minimum, because
  `minInterval` has no upper bound (`Scheduler.IntervalCanSitBelowMinimum`).
  The floor holds only right after a later snooze (`Scheduler.Snooze`).
- A snooze chain is not always non-increasing. When the first-snooze
  interval is below the minimum, the second snooze raises the interval to
  the minimum (`Scheduler.SnoozeCanLengthenInterval`). The chain is
  non-increasing once it starts at or above the minimum
  (`Decay.SnoozeChainNonIncreasing`).

## Model

| member | source | states |
|---|---|---|
| `Numerics.Clamped` | Sources/WaterReminder.swift:418-421 | the result is at least the floor, and equals the input whenever the input already reaches the floor |
| `Numerics.ClampedIdempotent` | Sources/WaterReminder.swift:418-421 | clamping an already clamped value to the same floor changes nothing |
| `Numerics.Max` | Sources/WaterReminder.swift:234 | Swift's `max`: the result is at least both arguments and is one of them |
| `Numerics.Trunc` | Sources/WaterReminder.swift:127 | Swift's `Int(_:)`: a non-negative value truncates to the whole number `n` with `n <= x < n + 1`, a negative one toward zero |
| `Numerics.TruncatingRemainder` | Sources/WaterReminder.swift:405 | for a non-negative dividend and positive divisor the remainder lies in `[0, d)` and is zero exactly when the quotient is a whole number |
| `Settings.BaseInterval` | Sources/WaterReminder.swift:23-26 | whatever is stored, the base interval read is at least 60 s, and a stored value of at least 60 s is read back unchanged |
| `Settings.FirstSnoozeInterval` | Sources/WaterReminder.swift:27-30 | the first-snooze interval read is at least 10 s, and a stored value of at least 10 s is read back unchanged |
| `Settings.MinInterval` | Sources/WaterReminder.swift:31-34 | the minimum read is at least 5 s, and a stored value of at least 5 s is read back unchanged |
| `Settings.Defaults` | Sources/WaterReminder.swift:81-89 | the registered defaults read as 1800 s, 600 s and 15 s, with sound on and no login item |
| `Settings.Save` | Sources/WaterReminder.swift:338-357 | each interval written from the form is the form value (minutes converted to seconds) when that reaches its floor and exactly the floor otherwise, and reads back unchanged through the clamped getter |
| `Scheduler.Launch` | Sources/WaterReminder.swift:40-42 | at launch the countdown starts now from the base interval, with a fresh snooze chain and no prompt open |
| `Scheduler.Ack` | Sources/WaterReminder.swift:222-227 | acknowledging restarts the countdown at `now` from the base interval (at least 60 s) and resets the chain, leaving the prompt guard and last check time unchanged |
| `Scheduler.Snooze` | Sources/WaterReminder.swift:229-238 | a first snooze installs the first-snooze interval; a later one gives exactly the larger of half the interval and the minimum (at least both, and equal to one of them), so never above an interval that was at least the minimum; both restart the countdown at `now` and leave the chain non-first |
| `Scheduler.Tick` | Sources/WaterReminder.swift:144-158 | a reminder fires iff no prompt is open and the elapsed time reaches the interval (inclusive); it cites elapsed whole minutes `n` with `60n <= elapsed < 60(n+1)` iff elapsed is at least 60 s, otherwise the generic nag |
| `Scheduler.DidWake` | Sources/WaterReminder.swift:160-169 | a welcome-back reminder is queued and the chain reset iff the gap since the last check is at least 300 s; the last check time always becomes `now`; the interval, countdown start and guard are unchanged |
| `Scheduler.OpenPrompt` | Sources/WaterReminder.swift:174-175 | opening a prompt raises the guard and changes nothing else |
| `Scheduler.ClosePrompt` | Sources/WaterReminder.swift:206-217 | the first button acknowledges and any other response, the timeout included, snoozes; afterwards the guard is down and the last check time is `now` |
| `Scheduler.ShowReminder` | Sources/WaterReminder.swift:173-218 | a no-op while a prompt is open; otherwise exactly one of acknowledge or snooze is applied (the chain is fresh iff the first button was chosen), then the guard drops and the last check time is `now` |
| `Scheduler.SavePreferences` | Sources/WaterReminder.swift:335-366 | saving writes the form to the store and resets the timing state exactly as an acknowledgment under the new preferences would |
| `Scheduler.AckBoundaryInclusive` | Sources/WaterReminder.swift:150 | after an acknowledgment at `t0` no reminder fires at `t0 + base - 1` and one fires at `t0 + base` |
| `Scheduler.WakeBoundaryInclusive` | Sources/WaterReminder.swift:161-163 | a wake 299 s after the last check neither resets the chain nor queues a welcome; one at 300 s does both |
| `Scheduler.IntervalCanSitBelowMinimum` | Sources/WaterReminder.swift:222-235 | with a 1000 s minimum, both an acknowledgment and a first snooze leave the interval below the minimum |
| `Scheduler.SnoozeCanLengthenInterval` | Sources/WaterReminder.swift:229-235 | with a 10 s first snooze and a 100 s minimum, the second snooze raises the interval from 10 s to 100 s |
| `Display.Remaining` | Sources/WaterReminder.swift:126 | the remaining time is never negative, is zero exactly when the countdown has run out, and otherwise adds up with the elapsed time to the interval |
| `Display.Countdown` | Sources/WaterReminder.swift:126-129 | the displayed minutes and seconds (seconds below 60) are the whole remaining seconds, split |
| `Display.TickTriggersIffCountdownZero` | Sources/WaterReminder.swift:126-150 | a heartbeat fires a reminder exactly when no prompt is open and the remaining time is zero, and then the display reads `0:00`; the display reads `0:00` exactly when less than one second remains, so it can show `0:00` for up to a second before the reminder fires |
| `Display.NextSnoozeSeconds` | Sources/WaterReminder.swift:395-401 | the previewed snooze is at least 5 s, is the first-snooze interval when a first snooze is pending, and is at least the minimum otherwise |
| `Display.PreviewMatchesSnooze` | Sources/WaterReminder.swift:395-401 | the preview equals the interval a snooze at any time would install |
| `Display.FormatNextSnooze` | Sources/WaterReminder.swift:395-413 | the label is "N sec" iff the preview is under 60 s (N its whole seconds, between 5 and 59), "N min" iff it is a whole number of minutes of at least 60 s (N times 60 equals it), and a fractional minute count otherwise |
| `Display.LabelDenotesPreview` | Sources/WaterReminder.swift:403-412 | reading a minute label back gives the previewed duration exactly; a seconds label gives it rounded down to a whole second |
| `Decay.DecayAtLeastFloor` | Sources/WaterReminder.swift:234 | after one or more later snoozes the interval is at least the minimum |
| `Decay.DecayNonIncreasing` | Sources/WaterReminder.swift:234 | from an interval at or above the minimum, each later snooze never lengthens it |
| `Decay.DecayStaysAtFloor` | Sources/WaterReminder.swift:234 | an interval at the minimum stays there under any number of later snoozes |
| `Decay.DecayReachesFloor` | Sources/WaterReminder.swift:234 | halving from any interval reaches exactly the minimum after `StepsToFloor` snoozes |
| `Decay.DecayPinnedAtFloor` | Sources/WaterReminder.swift:234 | from `StepsToFloor` snoozes on, the interval is exactly the minimum |
| `Decay.SnoozeAllDecays` | Sources/WaterReminder.swift:229-236 | within a chain, a run of snoozes halves the interval once per snooze down to the minimum, keeps the chain non-first, and restarts the countdown at the last snooze |
| `Decay.RepeatedSnoozesReachFloor` | Sources/WaterReminder.swift:229-236 | from any state there is a bound after which every run of snoozes leaves the interval exactly at the minimum |
| `Decay.SnoozeChainNonIncreasing` | Sources/WaterReminder.swift:234 | in a chain starting at or above the minimum, one more snooze never lengthens the interval nor drops it below the minimum |
| `Machine.Start` | Sources/WaterReminder.swift:40-42 | the app starts with no prompt, no queued welcome, the base interval and a fresh chain |
| `Machine.Present` | Sources/WaterReminder.swift:173-175 | presenting a reminder while one is showing changes nothing; otherwise the prompt shows that message and the only change to the scheduler state is the raised guard |
| `Machine.Step` | Sources/WaterReminder.swift:69-78 | one event keeps the guard in step with the prompt, changes the preferences only on saving and queues at most one welcome. A heartbeat changes nothing but the guard, and with no prompt showing it opens one carrying its message exactly when the countdown has run out. A wake applies `didWake` (lines 75-78, 160-169) and queues a welcome iff it reports one. The menu's "I Drank Water" and "Snooze" apply `doAck` and `doSnooze` (lines 240-246). Saving writes the form and resets the timing as an acknowledgment under the new preferences (lines 338-362). None of these touches the prompt |
| `Machine.StepConsistent` | Sources/WaterReminder.swift:173-216 | every event keeps the guard raised exactly while a prompt is showing |
| `Machine.RunConsistent` | Sources/WaterReminder.swift:173-216 | any sequence of events keeps the guard raised exactly while a prompt is showing |
| `Machine.PresentThenRespondIsShowReminder` | Sources/WaterReminder.swift:173-218 | with no prompt showing, presenting a reminder and then answering it yields the same state as `showReminder` run to completion, and leaves no prompt showing |
| `Machine.PromptNotReplaced` | Sources/WaterReminder.swift:174 | while a prompt is showing, no event but a response changes it: at most one prompt at a time |
| `Machine.ResolvedOnce` | Sources/WaterReminder.swift:196-217 | a response closes the prompt having applied exactly one of acknowledge or snooze at its time; a second response changes nothing |
| `Machine.FirstSnoozeResetOnlyBy` | Sources/WaterReminder.swift:160-238 | a fresh chain starts only on an acknowledgment (menu, first prompt button or saving preferences) or on a wake after at least 300 s |
| `Machine.LastDrinkMovesOnlyOnAckOrSnooze` | Sources/WaterReminder.swift:222-238 | the countdown start moves only on an acknowledgment or snooze, and then to that event's time |
| `Machine.WelcomeRespectsGuard` | Sources/WaterReminder.swift:160-175 | a long wake queues exactly one welcome reminder and a short one none; a queued welcome that fires is always used up; while a prompt shows it is dropped, leaving the prompt and the scheduler state unchanged, and otherwise it shows |
| `Scenarios.DefaultDecayChain` | Sources/WaterReminder.swift:222-236 | with the defaults: reminders at 1800 s and 2400 s, snooze intervals 600 s, 300 s, 150 s, reaching 15 s and staying there |
| `Scenarios.ShortCycleUsesGenericMessage` | Sources/WaterReminder.swift:150-156 | a 10 s first snooze fires at exactly 10 s with the generic nag |
| `Scenarios.SnoozeLabels` | Sources/WaterReminder.swift:403-412 | the label reads "10 min" for a pending 600 s first snooze, "45 sec" after a 90 s interval and "1.5 min" after a 180 s interval |

## Left out

- Status-item icon drawing, menu construction, the preferences window layout, the alert's text and icon, and the beep: presentation without scheduling logic.
- The 1 s countdown timer and the run loop: each heartbeat is a `Tick` call or a `Heartbeat` event with an explicit time.
- The 120 s auto-dismiss timer and its `dismissed` flag: the prompt's outcome is an input (`FirstButton`, `SecondButton` or `TimedOut`), and a second response is a no-op in `Machine`.
- The 2 s `DispatchQueue.main.asyncAfter` delay: a long wake queues a welcome-back reminder (`welcomesDue`), delivered by a later `WelcomeFires` event.
- `UserDefaults` and `registerDefaults`: the store is a plain record of raw values, and `Settings.Defaults` stands for the registered values.
- `setLoginItem` and `SMAppService`: a foreign call whose failure is swallowed; only the stored flag is modelled.
- `Date()`: every transition takes `now`. The separate `Date()` reads inside one `showReminder` resolution are modelled as one time, and so are the two reads in `didWake` (the gap at line 161 and the new `lastCheckTime` at line 168).
- The `guard let view = sender.superview` early return in `savePreferences`: window plumbing; the model assumes the form is present.
- NaN and infinite doubles, and the trap of `Int(_:)` on out-of-range values: `real` has neither.
- `Double` rounding: the minutes-to-seconds products `field.doubleValue * 60` (lines 341-342) and the `timeIntervalSince` subtractions (lines 126, 146, 161) are exact in the model, where Swift may round them. Halving, `max`, the comparisons and `truncatingRemainder` are exact in both.
- Display.FormatNextSnooze: the fractional label carries the exact minute count; the `%.1f` rounding to one decimal is not modelled.
- Scheduler.Tick: the message is one of three variants; the literal strings are not modelled.
- Display.Countdown: the `%d:%02d` rendering is not modelled, only the minute/second split.

=== FILE: decay.dfy ===
/** The snooze decay chain: after the first snooze, each snooze halves the
    interval, never going below the minimum. With a fixed minimum the chain
    lands on the minimum after finitely many snoozes and stays there. */
module Decay {
  import opened Numerics
  import opened Settings
  import opened Scheduler

  /** One later snooze's effect on the interval. */
  function Halve(x: real, m: real): real {
    Max(x / 2.0, m)
  }

  /** The interval after `n` later snoozes starting from `x`. */
  function DecayBy(x: real, m: real, n: nat): real
    decreases n
  {
    if n == 0 then x else DecayBy(Halve(x, m), m, n - 1)
  }

  /** After at least one later snooze the interval is at or above the floor. */
  lemma {:induction false} DecayAtLeastFloor(x: real, m: real, n: nat)
    requires n >= 1
    ensures DecayBy(x, m, n) >= m
    decreases n
  {
    if n > 1 {
      DecayAtLeastFloor(Halve(x, m), m, n - 1);
    }
  }

  /** Starting at or above the floor, each later snooze never lengthens the
      interval. */
  lemma {:induction false} DecayNonIncreasing(x: real, m: real, n: nat)
    requires m >= 0.0 && x >= m
    ensures m <= DecayBy(x, m, n + 1) <= DecayBy(x, m, n)
    decreases n
  {
    if n > 0 {
      DecayNonIncreasing(Halve(x, m), m, n - 1);
    }
  }

  /** Once at the floor, the chain stays there. */
  lemma {:induction false} DecayStaysAtFloor(m: real, n: nat)
    requires m >= 0.0
    ensures DecayBy(m, m, n) == m
    decreases n
  {
    if n > 0 {
      assert Halve(m, m) == m;
      DecayStaysAtFloor(m, n - 1);
    }
  }

  /** Running `a` steps and then `b` steps is running `a + b` steps. */
  lemma {:induction false} DecayCompose(x: real, m: real, a: nat, b: nat)
    ensures DecayBy(DecayBy(x, m, a), m, b) == DecayBy(x, m, a + b)
    decreases a
  {
    if a > 0 {
      DecayCompose(Halve(x, m), m, a - 1, b);
    }
  }

  /** Halving a value above twice the floor lowers its multiple of the floor
      by more than one, so `StepsToFloor` terminates. */
  lemma HalvingShrinksQuotient(x: real, m: real)
    requires m > 0.0 && x / 2.0 > m
    ensures 0.0 <= (x / 2.0) / m && (x / 2.0) / m + 1.0 < x / m
    ensures ((x / 2.0) / m).Floor < (x / m).Floor
  {
    var q := (x / 2.0) / m;
    assert q * m == x / 2.0;
    assert q > 1.0;
    assert x / m == 2.0 * q;
  }

  /** How many later snoozes bring `x` down to the floor `m`. */
  function StepsToFloor(x: real, m: real): (n: nat)
    requires m > 0.0
    ensures n >= 1
    decreases if x / m >= 0.0 then (x / m).Floor else 0
  {
    if x / 2.0 <= m then 1
    else
      HalvingShrinksQuotient(x, m);
      1 + StepsToFloor(x / 2.0, m)
  }

  /** The chain reaches the floor exactly after `StepsToFloor` snoozes. */
  lemma {:induction false} DecayReachesFloor(x: real, m: real)
    requires m > 0.0
    ensures DecayBy(x, m, StepsToFloor(x, m)) == m
    decreases if x / m >= 0.0 then (x / m).Floor else 0
  {
    if x / 2.0 <= m {
      assert Halve(x, m) == m;
      assert DecayBy(x, m, 1) == DecayBy(m, m, 0);
    } else {
      HalvingShrinksQuotient(x, m);
      DecayReachesFloor(x / 2.0, m);
      assert Halve(x, m) == x / 2.0;
    }
  }

  /** From `StepsToFloor` snoozes on, the interval is exactly the floor. */
  lemma DecayPinnedAtFloor(x: real, m: real, k: nat)
    requires m > 0.0 && k >= StepsToFloor(x, m)
    ensures DecayBy(x, m, k) == m
  {
    var n := StepsToFloor(x, m);
    DecayReachesFloor(x, m);
    DecayCompose(x, m, n, k - n);
    DecayStaysAtFloor(m, k - n);
  }

  /** Snoozing at each of the given times in turn. */
  function SnoozeAll(s: State, c: Stored, times: seq<real>): State
    decreases |times|
  {
    if |times| == 0 then s else SnoozeAll(Snooze(s, c, times[0]), c, times[1..])
  }

  /** Within a chain (the first snooze already spent), the interval after a
      run of snoozes is the decay of the starting interval, and the countdown
      restarts at the last snooze. */
  lemma {:induction false} SnoozeAllDecays(s: State, c: Stored, times: seq<real>)
    requires !s.isFirstSnooze
    ensures SnoozeAll(s, c, times).currentInterval == DecayBy(s.currentInterval, MinInterval(c), |times|)
    ensures !SnoozeAll(s, c, times).isFirstSnooze
    ensures |times| > 0 ==> SnoozeAll(s, c, times).lastDrinkTime == times[|times| - 1]
    decreases |times|
  {
    if |times| > 0 {
      var s' := Snooze(s, c, times[0]);
      assert s'.currentInterval == Halve(s.currentInterval, MinInterval(c));
      SnoozeAllDecays(s', c, times[1..]);
      if |times| > 1 {
        assert times[1..][|times[1..]| - 1] == times[|times| - 1];
      }
    }
  }

  /** From any state, repeated snoozes pin the interval at the minimum after
      finitely many steps: `n` bounds how many are needed. */
  lemma RepeatedSnoozesReachFloor(s: State, c: Stored) returns (n: nat)
    ensures forall times: seq<real> :: |times| >= n ==> SnoozeAll(s, c, times).currentInterval == MinInterval(c)
  {
    var m := MinInterval(c);
    if s.isFirstSnooze {
      n := 1 + StepsToFloor(FirstSnoozeInterval(c), m);
      forall times: seq<real> | |times| >= n
        ensures SnoozeAll(s, c, times).currentInterval == m
      {
        var s' := Snooze(s, c, times[0]);
        SnoozeAllDecays(s', c, times[1..]);
        DecayPinnedAtFloor(FirstSnoozeInterval(c), m, |times| - 1);
      }
    } else {
      n := StepsToFloor(s.currentInterval, m);
      forall times: seq<real> | |times| >= n
        ensures SnoozeAll(s, c, times).currentInterval == m
      {
        SnoozeAllDecays(s, c, times);
        DecayPinnedAtFloor(s.currentInterval, m, |times|);
      }
    }
  }

  /** Within a chain that starts at or above the minimum, successive snoozes
      never lengthen the interval and never go below the minimum. */
  lemma SnoozeChainNonIncreasing(s: State, c: Stored, times: seq<real>, t: real)
    requires !s.isFirstSnooze && s.currentInterval >= MinInterval(c)
    ensures MinInterval(c) <= SnoozeAll(s, c, times + [t]).currentInterval <= SnoozeAll(s, c, times).currentInterval
  {
    SnoozeAllDecays(s, c, times);
    SnoozeAllDecays(s, c, times + [t]);
    DecayNonIncreasing(s.currentInterval, MinInterval(c), |times|);
  }
}

=== FILE: display.dfy ===
/** What the scheduler hands to the menu bar: the countdown and the label
    previewing the next snooze. Both are read-only views of the state. */
module Display {
  import opened Numerics
  import opened Settings
  import opened Scheduler

  /** Seconds left on the countdown, never negative. */
  function Remaining(s: State, now: real): (r: real)
    ensures r >= 0.0
    ensures r == 0.0 <==> Elapsed(s, now) >= s.currentInterval
    ensures r > 0.0 ==> r + Elapsed(s, now) == s.currentInterval
  {
    Max(0.0, s.currentInterval - Elapsed(s, now))
  }

  /** The countdown as shown in the menu bar, `M:SS`. */
  datatype Clock = Clock(mins: int, secs: int)

  /** Whole remaining seconds, split into minutes and a seconds part. */
  function Countdown(s: State, now: real): (k: Clock)
    ensures k.mins >= 0 && 0 <= k.secs < 60
    ensures (k.mins * 60 + k.secs) as real <= Remaining(s, now) < (k.mins * 60 + k.secs + 1) as real
  {
    var whole := Trunc(Remaining(s, now));
    Clock(whole / 60, whole % 60)
  }

  /** A heartbeat raises a reminder exactly when no prompt is open and the
      remaining time is zero, and the display then reads `0:00`. The display
      already reads `0:00` once less than a second remains, so it can show
      `0:00` for up to a second before the reminder fires. */
  lemma TickTriggersIffCountdownZero(s: State, now: real)
    ensures Tick(s, now).Remind? <==> !s.alertOpen && Remaining(s, now) == 0.0
    ensures Tick(s, now).Remind? ==> Countdown(s, now) == Clock(0, 0)
    ensures Countdown(s, now) == Clock(0, 0) <==> Remaining(s, now) < 1.0
  {
  }

  /** The duration the next snooze would set, computed without changing
      anything (the snooze button's label). */
  function NextSnoozeSeconds(s: State, c: Stored): (d: real)
    ensures d >= MinFloor
    ensures s.isFirstSnooze ==> d == FirstSnoozeInterval(c)
    ensures !s.isFirstSnooze ==> d >= MinInterval(c)
  {
    if s.isFirstSnooze then FirstSnoozeInterval(c) else Max(s.currentInterval / 2.0, MinInterval(c))
  }

  /** The preview agrees with what a snooze at any time would set. */
  lemma PreviewMatchesSnooze(s: State, c: Stored, now: real)
    ensures NextSnoozeSeconds(s, c) == Snooze(s, c, now).currentInterval
  {
  }

  /** The three shapes of the snooze label: "N sec", "N min" and a
      one-decimal fractional "M min". */
  datatype SnoozeLabel =
    | Seconds(n: int)
    | WholeMinutes(n: int)
    | FractionalMinutes(m: real)

  /** The snooze label for the current state. */
  function FormatNextSnooze(s: State, c: Stored): (l: SnoozeLabel)
    ensures l.Seconds? <==> NextSnoozeSeconds(s, c) < 60.0
    ensures l.WholeMinutes? <==> NextSnoozeSeconds(s, c) >= 60.0 && IsIntegral(NextSnoozeSeconds(s, c) / 60.0)
    ensures l.Seconds? ==> 5 <= l.n < 60 && l.n as real <= NextSnoozeSeconds(s, c) < l.n as real + 1.0
    ensures l.WholeMinutes? ==> l.n >= 1 && l.n as real * 60.0 == NextSnoozeSeconds(s, c)
    ensures l.FractionalMinutes? ==> l.m > 1.0 && l.m * 60.0 == NextSnoozeSeconds(s, c)
  {
    var secs := NextSnoozeSeconds(s, c);
    if secs >= 60.0 then
      var m := secs / 60.0;
      if TruncatingRemainder(secs, 60.0) == 0.0 then
        WholeMinutes(Trunc(m))
      else
        FractionalMinutes(m)
    else
      Seconds(Trunc(secs))
  }

  /** The number of seconds a label stands for; exact for minute labels,
      rounded down to a whole second for the "sec" label. */
  function LabelSeconds(l: SnoozeLabel): real {
    match l
    case Seconds(n) => n as real
    case WholeMinutes(n) => n as real * 60.0
    case FractionalMinutes(m) => m * 60.0
  }

  /** Reading the label back recovers the previewed duration, up to the
      truncation of a sub-minute value to whole seconds. */
  lemma LabelDenotesPreview(s: State, c: Stored)
    ensures NextSnoozeSeconds(s, c) >= 60.0 ==> LabelSeconds(FormatNextSnooze(s, c)) == NextSnoozeSeconds(s, c)
    ensures NextSnoozeSeconds(s, c) < 60.0 ==>
      LabelSeconds(FormatNextSnooze(s, c)) <= NextSnoozeSeconds(s, c) < LabelSeconds(FormatNextSnooze(s, c)) + 1.0
  {
  }
}

=== FILE: machine.dfy ===
/** The scheduler driven by its events: heartbeats, prompt responses, wake
    notifications, the delayed welcome-back reminder, the menu actions and
    saving preferences. The prompt is a single slot; `alertOpen` is the
    scheduler's record of whether it is filled. */
module Machine {
  import opened Settings
  import opened Scheduler

  datatype Prompt = Closed | Showing(msg: Message)

  /** The running application: scheduler state, preferences, the prompt
      slot, and how many welcome-back reminders are still queued. */
  datatype App = App(st: State, cfg: Stored, prompt: Prompt, welcomesDue: nat)

  datatype Event =
    | Heartbeat(now: real)
    | Respond(resp: Response, now: real)
    | WakeUp(now: real)
    | WelcomeFires
    | MenuDrank(now: real)
    | MenuSnooze(now: real)
    | SavePrefs(form: Form, now: real)

  /** The guard flag is raised exactly while a prompt is showing. */
  predicate Consistent(a: App) {
    a.prompt.Showing? <==> a.st.alertOpen
  }

  function Start(c: Stored, now: real): (a: App)
    ensures Consistent(a) && a.prompt == Closed && a.welcomesDue == 0
    ensures a.st.currentInterval == BaseInterval(c) && a.st.isFirstSnooze
  {
    App(Launch(c, now), c, Closed, 0)
  }

  /** The guard and opening half of `showReminder`. */
  function Present(a: App, msg: Message): (r: App)
    ensures a.st.alertOpen ==> r == a
    ensures !a.st.alertOpen ==> r.prompt == Showing(msg) && r.st == OpenPrompt(a.st)
    ensures r.cfg == a.cfg && r.welcomesDue == a.welcomesDue
  {
    if a.st.alertOpen then a else a.(st := OpenPrompt(a.st), prompt := Showing(msg))
  }

  /** One event. Only saving changes the preferences, at most one welcome
      is queued per event, and a heartbeat with no prompt showing opens one
      exactly when the countdown has run out, carrying the heartbeat's
      message and changing nothing but the guard. A wake applies `DidWake`,
      the menu items apply `Ack` and `Snooze`, and saving writes the form
      and resets the timing as an acknowledgment under the new preferences;
      none of these touches the prompt. */
  function Step(a: App, e: Event): (r: App)
    ensures Consistent(a) ==> Consistent(r)
    ensures !e.SavePrefs? ==> r.cfg == a.cfg
    ensures r.welcomesDue <= a.welcomesDue + 1
    ensures e.Heartbeat? && Consistent(a) && a.prompt.Closed? ==>
      (r.prompt.Showing? <==> Elapsed(a.st, e.now) >= a.st.currentInterval)
    ensures e.Heartbeat? ==> r.st.(alertOpen := a.st.alertOpen) == a.st && r.welcomesDue == a.welcomesDue
    ensures e.Heartbeat? && a.prompt.Closed? && r.prompt.Showing? ==> Tick(a.st, e.now) == Remind(r.prompt.msg)
    ensures e.WakeUp? ==> r.st == DidWake(a.st, e.now).st && r.prompt == a.prompt
    ensures e.WakeUp? ==> r.welcomesDue == a.welcomesDue + (if DidWake(a.st, e.now).welcome then 1 else 0)
    ensures e.MenuDrank? ==> r.st == Ack(a.st, a.cfg, e.now) && r.prompt == a.prompt && r.welcomesDue == a.welcomesDue
    ensures e.MenuSnooze? ==> r.st == Snooze(a.st, a.cfg, e.now) && r.prompt == a.prompt && r.welcomesDue == a.welcomesDue
    ensures e.SavePrefs? ==>
      r.cfg == Save(e.form) && r.st == Ack(a.st, r.cfg, e.now) && r.prompt == a.prompt && r.welcomesDue == a.welcomesDue
  {
    match e
    case Heartbeat(now) =>
      (match Tick(a.st, now)
       case Quiet => a
       case Remind(msg) => Present(a, msg))
    case Respond(resp, now) =>
      if a.prompt.Showing? then a.(st := ClosePrompt(a.st, a.cfg, resp, now), prompt := Closed) else a
    case WakeUp(now) =>
      var w := DidWake(a.st, now);
      a.(st := w.st, welcomesDue := a.welcomesDue + if w.welcome then 1 else 0)
    case WelcomeFires =>
      if a.welcomesDue == 0 then a else Present(a.(welcomesDue := a.welcomesDue - 1), WelcomeBack)
    case MenuDrank(now) => a.(st := Ack(a.st, a.cfg, now))
    case MenuSnooze(now) => a.(st := Snooze(a.st, a.cfg, now))
    case SavePrefs(f, now) =>
      var saved := SavePreferences(a.st, f, now);
      a.(cfg := saved.cfg, st := saved.st)
  }

  function Run(a: App, events: seq<Event>): App
    decreases |events|
  {
    if |events| == 0 then a else Run(Step(a, events[0]), events[1..])
  }

  /** Every event keeps the guard flag in step with the prompt slot. */
  lemma StepConsistent(a: App, e: Event)
    requires Consistent(a)
    ensures Consistent(Step(a, e))
  {
  }

  /** Any run of events from a consistent state keeps the guard flag in
      step with the prompt. */
  lemma {:induction false} RunConsistent(a: App, events: seq<Event>)
    requires Consistent(a)
    ensures Consistent(Run(a, events))
    decreases |events|
  {
    if |events| > 0 {
      StepConsistent(a, events[0]);
      RunConsistent(Step(a, events[0]), events[1..]);
    }
  }

  /** At most one prompt: while one is showing, only a response changes it;
      heartbeats and the welcome-back reminder cannot open a second one. */
  lemma PromptNotReplaced(a: App, e: Event)
    requires Consistent(a) && a.prompt.Showing?
    requires !e.Respond?
    ensures Step(a, e).prompt == a.prompt
  {
  }

  /** A response closes the showing prompt having applied exactly one of
      acknowledge or snooze; a second response (the timeout after a click,
      or a click after the timeout) changes nothing. */
  lemma ResolvedOnce(a: App, r1: Response, t1: real, r2: Response, t2: real)
    requires Consistent(a) && a.prompt.Showing?
    ensures Step(a, Respond(r1, t1)).prompt == Closed
    ensures Step(a, Respond(r1, t1)).st.lastDrinkTime == t1
    ensures Step(a, Respond(r1, t1)).st.isFirstSnooze <==> r1 == FirstButton
    ensures r1 == FirstButton ==> Step(a, Respond(r1, t1)).st.currentInterval == BaseInterval(a.cfg)
    ensures r1 != FirstButton ==> Step(a, Respond(r1, t1)).st.currentInterval == Snooze(a.st, a.cfg, t1).currentInterval
    ensures Step(Step(a, Respond(r1, t1)), Respond(r2, t2)) == Step(a, Respond(r1, t1))
  {
  }

  /** A fresh decay chain starts only on acknowledgment (menu, prompt or
      saving preferences) or on a wake after a gap of at least 300 s. */
  lemma FirstSnoozeResetOnlyBy(a: App, e: Event)
    requires !a.st.isFirstSnooze && Step(a, e).st.isFirstSnooze
    ensures
      || e.MenuDrank?
      || e.SavePrefs?
      || (e.Respond? && e.resp == FirstButton && a.prompt.Showing?)
      || (e.WakeUp? && e.now - a.st.lastCheckTime >= SleepThreshold)
  {
  }

  /** The countdown restarts only on acknowledgment or snooze, and always
      at the time of that event. */
  lemma LastDrinkMovesOnlyOnAckOrSnooze(a: App, e: Event)
    requires Step(a, e).st.lastDrinkTime != a.st.lastDrinkTime
    ensures e.MenuDrank? || e.MenuSnooze? || e.SavePrefs? || (e.Respond? && a.prompt.Showing?)
    ensures Step(a, e).st.lastDrinkTime == e.now
  {
  }

  /** A long wake queues one welcome-back reminder. Firing always uses it
      up: while a prompt is showing it is dropped (not deferred), leaving the
      prompt and the scheduler state as they were. */
  lemma WelcomeRespectsGuard(a: App, now: real)
    requires Consistent(a)
    ensures now - a.st.lastCheckTime >= SleepThreshold ==> Step(a, WakeUp(now)).welcomesDue == a.welcomesDue + 1
    ensures now - a.st.lastCheckTime < SleepThreshold ==> Step(a, WakeUp(now)).welcomesDue == a.welcomesDue
    ensures a.welcomesDue > 0 ==> Step(a, WelcomeFires).welcomesDue == a.welcomesDue - 1
    ensures a.welcomesDue > 0 && a.prompt.Showing? ==> Step(a, WelcomeFires).prompt == a.prompt
    ensures a.welcomesDue > 0 && a.prompt.Showing? ==> Step(a, WelcomeFires).st == a.st
    ensures a.welcomesDue > 0 && a.prompt.Closed? ==> Step(a, WelcomeFires).prompt == Showing(WelcomeBack)
  {
  }

  /** Presenting a reminder with no prompt showing and then answering it is
      `showReminder` run to completion. */
  lemma PresentThenRespondIsShowReminder(a: App, msg: Message, resp: Response, now: real)
    requires Consistent(a) && a.prompt.Closed?
    ensures Step(Present(a, msg), Respond(resp, now)).st == ShowReminder(a.st, a.cfg, resp, now)
    ensures Step(Present(a, msg), Respond(resp, now)).prompt == Closed
  {
  }
}

=== FILE: numerics.dfy ===
/** The handful of `Double` operations the scheduler relies on, over `real`.
    Swift's `Int(_:)` truncates toward zero and `truncatingRemainder`
    keeps the sign of the dividend; both are written out here because
    Dafny's own `/`, `%` and `.Floor` round differently for negatives. */
module Numerics {

  /** The `clamped(min:)` extension on `Double`: raise a value to a floor. */
  function Clamped(x: real, minVal: real): (r: real)
    ensures r >= minVal
    ensures x >= minVal ==> r == x
    ensures r == x || r == minVal
  {
    if x < minVal then minVal else x
  }

  /** Clamping twice to the same floor is clamping once. */
  lemma ClampedIdempotent(x: real, minVal: real)
    ensures Clamped(Clamped(x, minVal), minVal) == Clamped(x, minVal)
  {
  }

  /** Swift's `max` on two doubles. */
  function Max(a: real, b: real): (r: real)
    ensures r >= a && r >= b
    ensures r == a || r == b
  {
    if b >= a then b else a
  }

  /** True when `y` is a whole number. */
  predicate IsIntegral(y: real) {
    y.Floor as real == y
  }

  /** Swift's `Int(_:)` on a finite double: truncation toward zero. */
  function Trunc(x: real): (n: int)
    ensures x >= 0.0 ==> 0 <= n && n as real <= x < n as real + 1.0
    ensures x < 0.0 ==> n <= 0 && n as real - 1.0 < x <= n as real
  {
    if x >= 0.0 then x.Floor else -((-x).Floor)
  }

  /** Swift's `truncatingRemainder(dividingBy:)`: `x - d * Int(x / d)`. */
  function TruncatingRemainder(x: real, d: real): (r: real)
    requires d != 0.0
    ensures x >= 0.0 && d > 0.0 ==> 0.0 <= r < d
    ensures x >= 0.0 && d > 0.0 ==> (r == 0.0 <==> IsIntegral(x / d))
  {
    var q := Trunc(x / d);
    var r := x - d * (q as real);
    if x >= 0.0 && d > 0.0 then (RemainderBounds(x, d, q); r) else r
  }

  /** For non-negative `x` and positive `d`, the truncated quotient `q`
      leaves a remainder in `[0, d)` that vanishes exactly when `x / d`
      is whole. */
  lemma RemainderBounds(x: real, d: real, q: int)
    requires x >= 0.0 && d > 0.0 && q == Trunc(x / d)
    ensures 0.0 <= x - d * (q as real) < d
    ensures x - d * (q as real) == 0.0 <==> IsIntegral(x / d)
  {
    QuotientNonNegative(x, d);
    assert d * (x / d) == x;
    FractionBelow(x, d, x / d, q as real);
    FractionZero(x, d, x / d, q as real);
  }

  /** A non-negative value divided by a positive one is non-negative. */
  lemma QuotientNonNegative(x: real, d: real)
    requires x >= 0.0 && d > 0.0
    ensures x / d >= 0.0
  {
  }

  /** With `x == d * y` and `q <= y < q + 1`, the remainder `x - d * q`
      lies in `[0, d)`. */
  lemma FractionBelow(x: real, d: real, y: real, q: real)
    requires d > 0.0 && x == d * y && q <= y < q + 1.0
    ensures 0.0 <= x - d * q < d
  {
    assert x - d * q == d * (y - q);
    PositiveProduct(d, q + 1.0 - y);
    assert d * (q + 1.0 - y) == d - (x - d * q);
    assert d - (x - d * q) > 0.0;
  }

  /** With `x == d * y` and positive `d`, the remainder `x - d * q` is zero
      exactly when `y == q`. */
  lemma FractionZero(x: real, d: real, y: real, q: real)
    requires d > 0.0 && x == d * y
    ensures x - d * q == 0.0 <==> y == q
  {
    assert x - d * q == d * (y - q);
    if y > q {
      PositiveProduct(d, y - q);
    }
    if y < q {
      PositiveProduct(d, q - y);
    }
  }

  /** The product of two positive reals is positive. */
  lemma PositiveProduct(a: real, b: real)
    requires a > 0.0 && b > 0.0
    ensures a * b > 0.0
  {
  }
}

=== FILE: scenarios.dfy ===
/** Worked examples with the default preferences (30 min base, 10 min first
    snooze, 15 s minimum). */
module Scenarios {
  import opened Settings
  import opened Scheduler
  import opened Display
  import opened Decay

  /** Acknowledge at 0; the reminder fires at 1800 s, the first snooze
      grants 600 s, the next ones halve to 300 s and 150 s, and the chain
      bottoms out at 15 s. */
  lemma DefaultDecayChain()
    ensures var c := Defaults();
      var s1 := Ack(Launch(c, 0.0), c, 0.0);
      var s2 := Snooze(s1, c, 1800.0);
      var s3 := Snooze(s2, c, 2400.0);
      var s4 := Snooze(s3, c, 2700.0);
      && Tick(s1, 1799.0) == Quiet
      && Tick(s1, 1800.0) == Remind(SinceLastDrink(30))
      && s2.currentInterval == 600.0 && !s2.isFirstSnooze
      && Tick(s2, 2399.0) == Quiet
      && Tick(s2, 2400.0) == Remind(SinceLastDrink(10))
      && s3.currentInterval == 300.0
      && Tick(s3, 2700.0) == Remind(SinceLastDrink(5))
      && s4.currentInterval == 150.0
      && DecayBy(150.0, 15.0, 3) == 18.75
      && DecayBy(150.0, 15.0, 4) == 15.0
      && DecayBy(150.0, 15.0, 5) == 15.0
  {
  }

  /** A reminder within a minute of the last snooze uses the generic nag. */
  lemma ShortCycleUsesGenericMessage()
    ensures var c := Stored(1800.0, 10.0, 5.0, true, false);
      var s := Snooze(Launch(c, 0.0), c, 100.0);
      && Tick(s, 109.0) == Quiet
      && Tick(s, 110.0) == Remind(KeepSnoozing)
  {
  }

  /** The snooze label in its three shapes: "10 min" for a pending first
      snooze of 600 s, "45 sec" for a decayed 90 s interval over a 15 s
      minimum, "1.5 min" for a decayed 180 s interval. */
  lemma SnoozeLabels()
    ensures FormatNextSnooze(State(0.0, 0.0, 1800.0, true, false), Defaults()) == WholeMinutes(10)
    ensures FormatNextSnooze(State(0.0, 0.0, 90.0, false, false), Defaults()) == Seconds(45)
    ensures FormatNextSnooze(State(0.0, 0.0, 180.0, false, false), Defaults()) == FractionalMinutes(1.5)
  {
  }
}

=== FILE: scheduler.dfy ===
/** The reminder scheduling state machine. Every transition is a pure
    function of the current state, the stored preferences and the wall-clock
    time `now` (seconds), which the caller supplies. */
module Scheduler {
  import opened Numerics
  import opened Settings

  /** A wake whose gap since the last check reaches this many seconds is
      treated as a real sleep. */
  const SleepThreshold: real := 300.0

  /** Reminders raised at least this many seconds after the last drink cite
      the elapsed minutes; shorter ones use the generic nag. */
  const MinuteMessageThreshold: real := 60.0

  datatype State = State(
    lastDrinkTime: real,
    lastCheckTime: real,
    currentInterval: real,
    isFirstSnooze: bool,
    alertOpen: bool)

  /** The state at launch: the countdown starts from the base interval. */
  function Launch(c: Stored, now: real): (s: State)
    ensures s.lastDrinkTime == now && s.lastCheckTime == now
    ensures s.currentInterval == BaseInterval(c)
    ensures s.isFirstSnooze && !s.alertOpen
  {
    State(now, now, BaseInterval(c), true, false)
  }

  /** Seconds since the countdown last restarted. */
  function Elapsed(s: State, now: real): real {
    now - s.lastDrinkTime
  }

  /** "I drank water": restart the countdown from the base interval and
      start a fresh decay chain. The prompt guard and the last check time
      are left alone. */
  function Ack(s: State, c: Stored, now: real): (r: State)
    ensures r.lastDrinkTime == now
    ensures r.currentInterval == BaseInterval(c) >= BaseFloor
    ensures r.isFirstSnooze
    ensures r.alertOpen == s.alertOpen && r.lastCheckTime == s.lastCheckTime
  {
    s.(lastDrinkTime := now, currentInterval := BaseInterval(c), isFirstSnooze := true)
  }

  /** Snooze: the first one in a chain grants the first-snooze interval,
      each later one halves the interval down to the minimum. Either way the
      countdown restarts now. */
  function Snooze(s: State, c: Stored, now: real): (r: State)
    ensures r.lastDrinkTime == now
    ensures !r.isFirstSnooze
    ensures s.isFirstSnooze ==> r.currentInterval == FirstSnoozeInterval(c)
    ensures !s.isFirstSnooze ==> r.currentInterval >= MinInterval(c)
    ensures !s.isFirstSnooze ==> r.currentInterval >= s.currentInterval / 2.0
    ensures !s.isFirstSnooze ==> r.currentInterval == s.currentInterval / 2.0 || r.currentInterval == MinInterval(c)
    ensures !s.isFirstSnooze && s.currentInterval >= MinInterval(c) ==> r.currentInterval <= s.currentInterval
    ensures r.alertOpen == s.alertOpen && r.lastCheckTime == s.lastCheckTime
  {
    var s' :=
      if s.isFirstSnooze then
        s.(currentInterval := FirstSnoozeInterval(c), isFirstSnooze := false)
      else
        s.(currentInterval := Max(s.currentInterval / 2.0, MinInterval(c)));
    s'.(lastDrinkTime := now)
  }

  /** The text a reminder prompt carries. */
  datatype Message =
    | SinceLastDrink(minutes: int)
    | KeepSnoozing
    | WelcomeBack

  /** What one heartbeat decides. */
  datatype Trigger = Quiet | Remind(msg: Message)

  /** The once-a-second heartbeat: raise a reminder when no prompt is open
      and the countdown has run out (the boundary counts as run out). */
  function Tick(s: State, now: real): (t: Trigger)
    ensures t.Remind? <==> !s.alertOpen && Elapsed(s, now) >= s.currentInterval
    ensures t.Remind? ==> (t.msg.SinceLastDrink? <==> Elapsed(s, now) >= MinuteMessageThreshold)
    ensures t.Remind? ==> !t.msg.WelcomeBack?
    ensures t.Remind? && t.msg.SinceLastDrink? ==>
      t.msg.minutes >= 1 &&
      t.msg.minutes as real * 60.0 <= Elapsed(s, now) < (t.msg.minutes + 1) as real * 60.0
  {
    var elapsed := Elapsed(s, now);
    if !s.alertOpen && elapsed >= s.currentInterval then
      if elapsed >= MinuteMessageThreshold then
        Remind(SinceLastDrink(Trunc(elapsed) / 60))
      else
        Remind(KeepSnoozing)
    else
      Quiet
  }

  /** The outcome of a wake notification: the new state, and whether a
      welcome-back reminder was scheduled. */
  datatype Wake = Wake(st: State, welcome: bool)

  /** Wake from sleep: a long enough gap since the last check starts a fresh
      decay chain and schedules a welcome-back reminder. The check time
      always moves to now. */
  function DidWake(s: State, now: real): (w: Wake)
    ensures w.welcome <==> now - s.lastCheckTime >= SleepThreshold
    ensures w.st.isFirstSnooze == (s.isFirstSnooze || w.welcome)
    ensures w.st.lastCheckTime == now
    ensures w.st.lastDrinkTime == s.lastDrinkTime
    ensures w.st.currentInterval == s.currentInterval
    ensures w.st.alertOpen == s.alertOpen
  {
    var gap := now - s.lastCheckTime;
    if gap >= SleepThreshold then
      Wake(s.(isFirstSnooze := true, lastCheckTime := now), true)
    else
      Wake(s.(lastCheckTime := now), false)
  }

  /** How a reminder prompt ended: its first button, its second button, or
      the auto-dismiss timeout aborting it. */
  datatype Response = FirstButton | SecondButton | TimedOut

  /** Opening a prompt raises the guard. Only called when none is open. */
  function OpenPrompt(s: State): (r: State)
    requires !s.alertOpen
    ensures r.alertOpen
    ensures r.lastDrinkTime == s.lastDrinkTime && r.lastCheckTime == s.lastCheckTime
    ensures r.currentInterval == s.currentInterval && r.isFirstSnooze == s.isFirstSnooze
  {
    s.(alertOpen := true)
  }

  /** Closing a prompt: the first button acknowledges, anything else
      (including the timeout) snoozes; then the guard drops and the check
      time moves to now. */
  function ClosePrompt(s: State, c: Stored, resp: Response, now: real): (r: State)
    ensures !r.alertOpen && r.lastCheckTime == now
    ensures r.lastDrinkTime == now
    ensures r.isFirstSnooze <==> resp == FirstButton
    ensures resp == FirstButton ==> r.currentInterval == Ack(s, c, now).currentInterval
    ensures resp != FirstButton ==> r.currentInterval == Snooze(s, c, now).currentInterval
  {
    var s' := if resp == FirstButton then Ack(s, c, now) else Snooze(s, c, now);
    s'.(alertOpen := false, lastCheckTime := now)
  }

  /** `showReminder` run to completion: a no-op while a prompt is open,
      otherwise open one and close it with the given response at `now`. */
  function ShowReminder(s: State, c: Stored, resp: Response, now: real): (r: State)
    ensures s.alertOpen ==> r == s
    ensures !s.alertOpen ==> !r.alertOpen && r.lastCheckTime == now && r.lastDrinkTime == now
    ensures !s.alertOpen ==> (r.isFirstSnooze <==> resp == FirstButton)
    ensures !s.alertOpen && resp == FirstButton ==> r.currentInterval == BaseInterval(c)
    ensures !s.alertOpen && resp != FirstButton ==> r.currentInterval == Snooze(s, c, now).currentInterval
  {
    if s.alertOpen then s else ClosePrompt(OpenPrompt(s), c, resp, now)
  }

  /** The result of saving the preferences window: the new store and the
      reset scheduler state. */
  datatype Saved = Saved(cfg: Stored, st: State)

  /** Saving preferences writes the form and restarts the countdown from the
      (new) base interval with a fresh decay chain. */
  function SavePreferences(s: State, f: Form, now: real): (r: Saved)
    ensures r.cfg == Save(f)
    ensures r.st == Ack(s, r.cfg, now)
  {
    var c := Save(f);
    Saved(c, s.(currentInterval := BaseInterval(c), lastDrinkTime := now, isFirstSnooze := true))
  }

  /** The countdown boundary is inclusive: one second before the base
      interval has passed since an acknowledgment nothing fires, at exactly
      the base interval a reminder does. */
  lemma AckBoundaryInclusive(s: State, c: Stored, t0: real)
    requires !s.alertOpen
    ensures Tick(Ack(s, c, t0), t0 + BaseInterval(c) - 1.0) == Quiet
    ensures Tick(Ack(s, c, t0), t0 + BaseInterval(c)).Remind?
  {
  }

  /** The sleep threshold is inclusive: a gap of 299 s is an ordinary wake,
      a gap of 300 s is a sleep. */
  lemma WakeBoundaryInclusive(s: State)
    ensures DidWake(s, s.lastCheckTime + 299.0).st.isFirstSnooze == s.isFirstSnooze
    ensures !DidWake(s, s.lastCheckTime + 299.0).welcome
    ensures DidWake(s, s.lastCheckTime + 300.0).st.isFirstSnooze
    ensures DidWake(s, s.lastCheckTime + 300.0).welcome
  {
  }

  /** The interval is not always at or above the minimum: an acknowledgment
      (or a first snooze) installs a value that can lie below a large
      configured minimum. */
  lemma IntervalCanSitBelowMinimum()
    ensures var c := Stored(60.0, 10.0, 1000.0, true, false);
      && Ack(Launch(c, 0.0), c, 0.0).currentInterval < MinInterval(c)
      && Snooze(Launch(c, 0.0), c, 0.0).currentInterval < MinInterval(c)
  {
  }

  /** Nor is a decay chain always non-increasing: when the first-snooze
      interval lies below the minimum, the second snooze raises the interval
      to the minimum. */
  lemma SnoozeCanLengthenInterval()
    ensures var c := Stored(1800.0, 10.0, 100.0, true, false);
      var first := Snooze(Launch(c, 0.0), c, 0.0);
      && first.currentInterval == 10.0
      && Snooze(first, c, 10.0).currentInterval == 100.0
  {
  }
}

=== FILE: settings.dfy ===
/** The persisted preferences and the clamped getters through which the
    scheduler reads them. Storage is a plain record of raw values: whatever
    was written, the getters never yield less than their floors. */
module Settings {
  import opened Numerics

  /** Floors applied on every read (and on every save from the form). */
  const BaseFloor: real := 60.0
  const FirstSnoozeFloor: real := 10.0
  const MinFloor: real := 5.0

  /** The raw values held in the preferences store. */
  datatype Stored = Stored(
    baseInterval: real,
    firstSnoozeInterval: real,
    minInterval: real,
    soundEnabled: bool,
    launchAtLogin: bool)

  /** Seconds between reminders after an acknowledgment. */
  function BaseInterval(c: Stored): (r: real)
    ensures r >= BaseFloor
    ensures c.baseInterval >= BaseFloor ==> r == c.baseInterval
    ensures c.baseInterval < BaseFloor ==> r == BaseFloor
  {
    Clamped(c.baseInterval, BaseFloor)
  }

  /** Seconds granted by the first snooze after an acknowledgment. */
  function FirstSnoozeInterval(c: Stored): (r: real)
    ensures r >= FirstSnoozeFloor
    ensures c.firstSnoozeInterval >= FirstSnoozeFloor ==> r == c.firstSnoozeInterval
    ensures c.firstSnoozeInterval < FirstSnoozeFloor ==> r == FirstSnoozeFloor
  {
    Clamped(c.firstSnoozeInterval, FirstSnoozeFloor)
  }

  /** The floor below which later snoozes never shrink the interval. */
  function MinInterval(c: Stored): (r: real)
    ensures r >= MinFloor
    ensures c.minInterval >= MinFloor ==> r == c.minInterval
    ensures c.minInterval < MinFloor ==> r == MinFloor
  {
    Clamped(c.minInterval, MinFloor)
  }

  /** The registered defaults: 30 min, 10 min, 15 s, sound on, no login item. */
  function Defaults(): (c: Stored)
    ensures BaseInterval(c) == 1800.0
    ensures FirstSnoozeInterval(c) == 600.0
    ensures MinInterval(c) == 15.0
    ensures c.soundEnabled && !c.launchAtLogin
  {
    Stored(1800.0, 600.0, 15.0, true, false)
  }

  /** The preferences window's fields: the two longer intervals are
      entered in minutes, the floor in seconds. */
  datatype Form = Form(
    baseMinutes: real,
    firstSnoozeMinutes: real,
    minSeconds: real,
    sound: bool,
    launchAtLogin: bool)

  /** What saving the preferences window writes to the store. Each interval
      is floored as it is written, so reading it back returns it unchanged. */
  function Save(f: Form): (c: Stored)
    ensures BaseInterval(c) == c.baseInterval >= f.baseMinutes * 60.0
    ensures FirstSnoozeInterval(c) == c.firstSnoozeInterval >= f.firstSnoozeMinutes * 60.0
    ensures MinInterval(c) == c.minInterval >= f.minSeconds
    ensures f.baseMinutes * 60.0 >= BaseFloor ==> c.baseInterval == f.baseMinutes * 60.0
    ensures f.firstSnoozeMinutes * 60.0 >= FirstSnoozeFloor ==> c.firstSnoozeInterval == f.firstSnoozeMinutes * 60.0
    ensures f.minSeconds >= MinFloor ==> c.minInterval == f.minSeconds
    ensures f.baseMinutes * 60.0 < BaseFloor ==> c.baseInterval == BaseFloor
    ensures f.firstSnoozeMinutes * 60.0 < FirstSnoozeFloor ==> c.firstSnoozeInterval == FirstSnoozeFloor
    ensures f.minSeconds < MinFloor ==> c.minInterval == MinFloor
    ensures c.soundEnabled == f.sound && c.launchAtLogin == f.launchAtLogin
  {
    Stored(
      Max(f.baseMinutes * 60.0, BaseFloor),
      Max(f.firstSnoozeMinutes * 60.0, FirstSnoozeFloor),
      Max(f.minSeconds, MinFloor),
      f.sound,
      f.launchAtLogin)
  }
}
